=== FILE: README.md ===
# FabCar chaincode, modelled in Dafny

This project models the `FabCar` Hyperledger Fabric contract (`src/fabcar.ts`),
which keeps cars, financing agreements and payments as JSON records in the
ledger's key-value world state. It also keeps composite-key index markers beside
each new record. Every transaction is a pure function from the world state and
its arguments to either the new state or the error that rejects it. A rejected
transaction commits none of its writes, so an error carries no state.

- `wrappers.dfy`: `Option` and `Result`.
- `decimal.dfy`: the unpadded decimal rendering of integers that the index keys
  and the seeded keys use, with its inverse.
- `records.dfy`: the car, financing and payment records (fields from
  `src/fabcar.ts:134-142` and `src/car_financing.ts:1-19`). Also the decoded view
  `Entry` of a stored value, which is one of: a record, the marker byte 0x00, raw
  text that JSON.parse rejects, or some other JSON value with its `docType`.
- `world_state.dfy`: the store `map<Key, Entry>`. A composite key is the pair
  (index name, attribute list). A read treats a missing key and an empty value
  alike.
- `index.dfy`: the three index names and the marker keys built from them.
- `fabcar.dfy`: the transactions `InitLedger`, `QueryCar`, `CreateCar`,
  `ChangeCarOwner`, `QueryCarFinance`, `CreateCarFinance` and `PayCarFinance`.
- `queries.dfy`: `QueryAllCars`, `QueryAllCarFinances` and
  `QueryAllCarFinancePayment`, which filter the host's range scan.
- `transactions.dfy`: the contract as a state machine over histories of
  transactions, with the invariants every history keeps.
- `properties.dfy`: properties that relate several calls.

Within one transaction the writes are applied in the order the contract issues
them. When two of its keys coincide, the later write wins. For example:
- `createCarFinance` with `financeId == carId` leaves only the car.
- `payCarFinance` with `paymentId == financeId` leaves only the updated agreement.
- `payCarFinance` with `paymentId` equal to the car's id and no payoff replaces
  the car with the payment.

The contracts state these cases.

Behaviour of the code a reader may not expect:
- Index markers are not filtered out of query results. Queries keep every value
  that JSON.parse rejects, so a marker shows up as the text of byte 0x00
  whenever the host's scan returns it (`Queries.MarkersSurface`).
- A financing may be created for a car already in finance; only the owner is
  checked (`Properties.FinancedCarCanBeFinancedAgain`).
- After payoff, every further payment that keeps the agreement paid off (any
  non-negative one) writes the car again with owner = the agreement's debtor.
  That undoes any owner change made in between
  (`Properties.PaidOffPaymentReassertsOwner`). A negative payment that drops the
  accumulated payment below the price is accepted and leaves the car untouched.
- At payoff the car goes to the debtor recorded in the agreement, not to the
  debtor argument of the paying call.
- An empty stored value counts as "does not exist" for every read and for the
  duplicate check in `createCar`.
- Neither `financeId` nor `paymentId` is checked before it is written, so both
  overwrite whatever is stored there.

## Model

| member | source | states |
|---|---|---|
| Decimal.IntToString | src/fabcar.ts:259 | the rendering is non-empty, starts with '-' exactly for negative numbers, is all digits after the optional sign, and has no leading zero (no padding) except for zero itself |
| Decimal.IntRoundTrip | src/fabcar.ts:259 | reading the rendering back gives the number, so it loses nothing |
| Index.DateAttrsRecoverDate | src/fabcar.ts:259 | the year, month and day attributes of a marker key read back as the date's year, month and day |
| Index.BuyCarIndexKeyInjective | src/fabcar.ts:259-260 | equal financing marker keys come from equal financeId, carId, debtor, creditor and date |
| Index.PayCarIndexKeyInjective | src/fabcar.ts:290-291 | equal payment marker keys come from equal paymentId, financeId, debtor, creditor and date |
| FabCar.InitKeyInjective | src/fabcar.ts:111 | the ten keys "AVX i AA" are pairwise distinct, so no seeded car overwrites another |
| FabCar.SeedCars | src/fabcar.ts:110-113 | after writing the first n catalog cars, key i holds car i, only those n keys are touched, and they are added to the keys |
| FabCar.InitLedger | src/fabcar.ts:15-115 | all ten catalog cars are stored, each owned by the bank and not in finance; no composite key is written; no other key changes |
| FabCar.QueryCar | src/fabcar.ts:117-124 | returns the stored value when present and non-empty, otherwise "does not exist" for that id |
| FabCar.QueryCarFinance | src/fabcar.ts:187-194 | the same rule for a financing id |
| Properties.CreateCarFinanceThenQueryCarFinance | src/fabcar.ts:246-257 | an agreement read right after its creation, under an id other than the car's, has payment 0 and the given car, price, instalment, debtor, creditor and date |
| FabCar.CreateCar | src/fabcar.ts:126-151 | rejected with "already exists" exactly when a non-empty value is stored; otherwise the id holds a bank-owned car with the given fields that is not in finance, the marker (carId, color, make, model) holds 0x00, and no other key changes |
| FabCar.ChangeCarOwner | src/fabcar.ts:173-185 | accepted exactly when a car is stored; missing and unparseable values give the matching errors; the new car has the new owner and the same other fields; no other key changes |
| FabCar.CreateCarFinance | src/fabcar.ts:236-267 | accepted exactly when a car owned by the bank is stored; each error case is named; the car keeps owner and details with the finance flag set; the agreement is stored with payment 0 and the given terms unless its id is the car's; a financing or payment record under the car id is rejected as not owned by the bank; the financing marker holds 0x00; at most three keys change |
| FabCar.PayCarFinance | src/fabcar.ts:269-303 | accepted exactly when the agreement and its car are stored; each error case is named; the accumulated payment grows by exactly the amount with the terms unchanged; at payoff the car goes to the agreement's debtor and leaves finance, otherwise it is untouched unless the payment id is the car's; the payment record and its marker are stored; at most four keys change |
| Queries.QueryAll | src/fabcar.ts:157-168 | never longer than the scan; every row is text or a parsed value whose docType is the requested tag |
| Queries.QueryAllCars | src/fabcar.ts:153-171 | every row is text or a value tagged "car" |
| Queries.QueryAllCarFinances | src/fabcar.ts:196-214 | every row is text or a value tagged "carFinancing" |
| Queries.QueryAllCarFinancePayment | src/fabcar.ts:216-234 | every row is text or a value tagged "carFinancingPayment" |
| Queries.QueryAllIsOrderedFilter | src/fabcar.ts:157-168 | the rows are, in scan order, exactly the scanned values that are unparseable or carry the requested docType, each shown with its key |
| Queries.MarkersSurface | src/fabcar.ts:158-166 | an index marker in the scan appears in every query's result as the text of byte 0x00 |
| Transactions.ApplyKeepsInvariants | src/fabcar.ts:110-303 | an accepted transaction never removes or changes a marker, writes only markers under composite keys, and keeps records off composite keys |
| Transactions.RunKeepsInvariants | src/fabcar.ts:110-303 | the same two invariants hold along every history of transactions |
| Properties.CreateCarThenQueryCar | src/fabcar.ts:126-151 | a car read right after its creation is the bank-owned, not-financed car with the supplied fields |
| Properties.CreateCarTwiceRejected | src/fabcar.ts:129-132 | creating the same id again is rejected with "already exists" |
| Properties.ChangeCarOwnerUndo | src/fabcar.ts:180-183 | changing the owner and then changing it back restores the whole world state |
| Properties.ChangeCarOwnerIdempotent | src/fabcar.ts:180-183 | changing to the same owner twice equals changing once |
| Properties.FinancedCarCanBeFinancedAgain | src/fabcar.ts:239-244 | a car just put in finance can be financed again under another agreement |
| Properties.FinancingNeedsBankOwner | src/fabcar.ts:242-244 | after the car is given to anyone but the bank, financing it is rejected as not owned by the bank |
| Properties.PaymentsAccumulate | src/fabcar.ts:293-294 | after any run of accepted payments the agreement holds the old payment plus the sum of the amounts, with its terms unchanged |
| Properties.PaidOffPaymentReassertsOwner | src/fabcar.ts:296-300 | a non-negative payment on a paid-off agreement gives the car back to its debtor, even after an owner change in between |
| Properties.CreateFinancePayOff | src/fabcar.ts:126-303 | creating a car, financing it and paying at least the price leaves the car owned by the debtor, not in finance, with its other fields intact |
| Properties.ReseedingIsNoOp | src/fabcar.ts:110-113 | writing the catalog again onto a state that already holds the first n catalog cars changes nothing |
| Properties.InitLedgerIdempotent | src/fabcar.ts:110-113 | seeding twice gives the same state as seeding once |
| Properties.CatalogCarsCanBeFinanced | src/fabcar.ts:17-113 | every seeded car can be financed at once |

## Left out

- The Fabric `Context` and `ctx.stub`: reads and writes act on the map. Composite
  keys are (index name, attributes) pairs and not their byte encoding. Any
  validation the host library performs on composite-key attributes is not
  modelled.
- Transactions.ApplyKeepsInvariants: assumes no id passed to the contract equals
  the encoding of a composite key. The contract writes caller ids and marker
  keys through the same `putState`, so without this assumption a `financeId`
  or `paymentId` equal to an existing marker key overwrites that marker with a
  record, and `createCar` under such an id is rejected as "already exists".
- Transactions.RunKeepsInvariants: rests on the same assumption; without it a
  history can overwrite a marker with a record. `Run` also yields no state from
  the first transaction that `Ready` excludes, so histories the source still
  accepts past that point are not followed: for example a payment after one
  whose paymentId was the car's id, which the source accepts and adds to the
  total.
- Properties.PaymentsAccumulate: bounded by the same cut-off; it covers only
  payment runs in which every call meets the precondition of `PayCarFinance`.
- FabCar.CreateCar, FabCar.CreateCarFinance, FabCar.PayCarFinance: their ids are
  primary keys by type, so the same assumption applies; an id equal to a marker
  key's encoding is not represented.
- What the host's `getStateByRange('', '')` returns is an input of the queries:
  which keys a full scan includes is host behaviour. The query results are the
  row sequence rather than its JSON text.
- JSON serialisation and parsing: stored bytes are represented by `Entry`, and
  text that JSON.parse rejects is `Raw` (or `Marker`). `Marker` and
  `Raw([0 as char])` are two values for the same stored byte, and a `Raw` value
  whose text JSON.parse accepts is not the decoding of any stored value.
- FabCar.ChangeCarOwner: requires that a parsed value under the car id is a car
  record. The contract never checks `docType`. On a financing or other JSON
  object it would add an owner field to that object, which the record types
  cannot represent.
- FabCar.CreateCarFinance: requires only that a parsed value under carId is not
  a JSON value outside the three record kinds (`NoForeignJson`), whose fields the
  model does not carry. A financing or payment record there is modelled: it has
  no owner, so it is rejected as not owned by the bank.
- FabCar.PayCarFinance: requires that a parsed value under financeId is a
  financing record and that a parsed value under its carId is a car record. The
  values are read at `src/fabcar.ts:272-276` without a kind check.
- JavaScript `Date` and time zones: a timestamp is the triple (year, month 1..12,
  day). Records store this triple, not the ISO text JSON gives a `Date`.
- FabCar.PayCarFinance: prices and payments are unbounded integers. The source
  uses IEEE doubles, so its sums can round where the model's are exact.
- Decimal.IntToString: agrees with JavaScript's `toString()` only for integers
  below 10^21 in absolute value; JavaScript switches to exponent notation from
  there on. That range covers every year, month and day a `Date` yields and the
  seed indices 0..9.
- Console logging, and the text the query transactions return.
- Endorsement, ordering and concurrent calls: each transaction is one atomic
  step.
- `src/car.ts` is not part of this model. The car's fields are taken from the
  object literal the contract builds.

=== FILE: decimal.dfy ===
/**
 * Decimal rendering of integers, as JavaScript's `Number.prototype.toString()`
 * does it for integral values below 10^21 in absolute value: optional minus
 * sign, digits, no padding. (From 10^21 on JavaScript uses exponent notation;
 * the years, months, days and seed indices rendered here stay far below.)
 * `ParseInt` is the inverse used to state what a rendering determines.
 */
module Decimal {
  import opened Wrappers

  predicate IsDigit(c: char) {
    '0' <= c <= '9'
  }

  predicate AllDigits(s: string) {
    forall i :: 0 <= i < |s| ==> IsDigit(s[i])
  }

  function DigitChar(d: nat): (c: char)
    requires d < 10
    ensures IsDigit(c) && c as int - '0' as int == d
  {
    ('0' as int + d) as char
  }

  function DigitValue(c: char): (d: nat)
    requires IsDigit(c)
    ensures d < 10 && DigitChar(d) == c
  {
    c as int - '0' as int
  }

  /** Most significant digit first; a leading '0' only for zero itself. */
  function NatToString(n: nat): (s: string)
    ensures |s| > 0 && AllDigits(s)
    ensures s[0] == '0' <==> n == 0
    ensures |s| == 1 <==> n < 10
    decreases n
  {
    if n < 10 then [DigitChar(n)] else NatToString(n / 10) + [DigitChar(n % 10)]
  }

  function IntToString(i: int): (s: string)
    ensures |s| > 0
    ensures i < 0 <==> s[0] == '-'
    ensures i >= 0 ==> AllDigits(s)
    ensures i > 0 ==> s[0] != '0'
    ensures i < 0 ==> |s| > 1 && AllDigits(s[1..]) && s[1] != '0'
  {
    if i < 0 then
      var digits := NatToString(-i);
      assert ("-" + digits)[1..] == digits;
      "-" + digits
    else NatToString(i)
  }

  /** Value of a digit string read most significant digit first. */
  function DigitsValue(s: string): nat
    requires AllDigits(s)
    decreases |s|
  {
    if s == [] then 0 else DigitsValue(s[..|s| - 1]) * 10 + DigitValue(s[|s| - 1])
  }

  /** Reads an optional minus sign followed by at least one digit. */
  function ParseInt(s: string): Option<int> {
    if |s| > 1 && s[0] == '-' && AllDigits(s[1..]) then var v: int := DigitsValue(s[1..]); Some(-v)
    else if |s| > 0 && AllDigits(s) then Some(DigitsValue(s))
    else None
  }

  lemma {:induction false} NatRoundTrip(n: nat)
    ensures DigitsValue(NatToString(n)) == n
    decreases n
  {
    if n >= 10 {
      var prefix := NatToString(n / 10);
      var s := prefix + [DigitChar(n % 10)];
      assert s[..|s| - 1] == prefix;
      NatRoundTrip(n / 10);
    }
  }

  /** Rendering an integer and reading it back gives the integer. */
  lemma IntRoundTrip(i: int)
    ensures ParseInt(IntToString(i)) == Some(i)
  {
    var s := IntToString(i);
    if i < 0 {
      var digits := NatToString(-i);
      assert s == "-" + digits;
      assert s[1..] == digits;
      NatRoundTrip(-i);
      assert ParseInt(s) == Some(i);
    } else {
      assert s == NatToString(i);
      assert IsDigit(s[0]);
      NatRoundTrip(i);
      assert ParseInt(s) == Some(i);
    }
  }

  /** Distinct integers render as distinct strings. */
  lemma IntToStringInjective(i: int, j: int)
    ensures IntToString(i) == IntToString(j) ==> i == j
  {
    IntRoundTrip(i);
    IntRoundTrip(j);
  }
}

=== FILE: fabcar.dfy ===
/**
 * The FabCar contract: each transaction is a pure function from the world
 * state and its arguments to either the new world state or the error that
 * rejects it. A rejected transaction commits none of its writes, so an
 * `Err` carries no state. The writes of one transaction are applied in the
 * order the contract issues them, so when two of its keys coincide the
 * later write wins.
 */
module FabCar {
  import opened Wrappers
  import opened Records
  import opened WorldState
  import opened Index
  import Decimal

  /** Why a transaction is rejected. */
  datatype Error =
    | NotFound(id: string)        // "<id> does not exist"
    | AlreadyExists(id: string)   // "<id> already exists"
    | NotOwnedByBank(carId: string)
    | Unparseable(id: string)     // JSON.parse threw on the value stored under id

  /** The owner every new car starts with, and the only one that may finance it. */
  const Bank: string := "bank"

  /** The cars written by `InitLedger`, in order. */
  const Catalog: seq<Car> := [
    Car("blue", "Toyota", "Prius", Bank, 150000000, false),
    Car("red", "Ford", "Mustang", Bank, 300000000, false),
    Car("green", "Hyundai", "Tucson", Bank, 90000000, false),
    Car("yellow", "Volkswagen", "Passat", Bank, 280000000, false),
    Car("black", "Tesla", "S", Bank, 1000000000, false),
    Car("purple", "Peugeot", "205", Bank, 90000000, false),
    Car("white", "Chery", "S22L", Bank, 250000000, false),
    Car("violet", "Fiat", "Punto", Bank, 90000000, false),
    Car("indigo", "Tata", "Nano", Bank, 150000000, false),
    Car("brown", "Holden", "Barina", Bank, 100000000, false)
  ]

  /** The primary key of the i-th catalog car: "AVX i AA". */
  function InitKey(i: nat): string {
    "AVX " + Decimal.IntToString(i) + " AA"
  }

  lemma InitKeyInjective(i: nat, j: nat)
    ensures InitKey(i) == InitKey(j) ==> i == j
  {
    if InitKey(i) == InitKey(j) {
      var a, b := InitKey(i), InitKey(j);
      assert a[4..|a| - 3] == Decimal.IntToString(i);
      assert b[4..|b| - 3] == Decimal.IntToString(j);
      Decimal.IntToStringInjective(i, j);
    }
  }

  lemma InitKeyFresh(n: nat)
    ensures forall i :: 0 <= i < n ==> InitKey(i) != InitKey(n)
  {
    forall i | 0 <= i < n
      ensures InitKey(i) != InitKey(n)
    {
      InitKeyInjective(i, n);
    }
  }

  /** The keys of the first n catalog cars. */
  function SeededKeys(n: nat): (ks: set<Key>)
    ensures forall k :: k in ks ==> k.Primary?
  {
    if n == 0 then {} else SeededKeys(n - 1) + {Primary(InitKey(n - 1))}
  }

  /** Writes the first n catalog cars, one after the other. */
  function SeedCars(s: Store, n: nat): (r: Store)
    requires n <= |Catalog|
    ensures forall i :: 0 <= i < n ==> CarAt(r, InitKey(i)) == Some(Catalog[i])
    ensures Frame(s, r, SeededKeys(n))
    ensures r.Keys == s.Keys + SeededKeys(n)
    ensures forall k :: k in SeededKeys(n) ==> k in r && r[k].CarRec?
  {
    if n == 0 then s
    else
      var prev := SeedCars(s, n - 1);
      SeedStep(s, prev, n);
      prev[Primary(InitKey(n - 1)) := CarRec(Catalog[n - 1])]
  }

  /** Writing car n-1 on top of the first n-1 keeps the seeding contract for n. */
  lemma SeedStep(s: Store, prev: Store, n: nat)
    requires 0 < n <= |Catalog|
    requires forall i :: 0 <= i < n - 1 ==> CarAt(prev, InitKey(i)) == Some(Catalog[i])
    requires Frame(s, prev, SeededKeys(n - 1))
    requires prev.Keys == s.Keys + SeededKeys(n - 1)
    requires forall k :: k in SeededKeys(n - 1) ==> k in prev && prev[k].CarRec?
    ensures var r := prev[Primary(InitKey(n - 1)) := CarRec(Catalog[n - 1])];
      && (forall i :: 0 <= i < n ==> CarAt(r, InitKey(i)) == Some(Catalog[i]))
      && Frame(s, r, SeededKeys(n))
      && r.Keys == s.Keys + SeededKeys(n)
      && (forall k :: k in SeededKeys(n) ==> k in r && r[k].CarRec?)
  {
    var k := Primary(InitKey(n - 1));
    var r := prev[k := CarRec(Catalog[n - 1])];
    InitKeyFresh(n - 1);
    forall i | 0 <= i < n - 1
      ensures CarAt(r, InitKey(i)) == Some(Catalog[i])
    {
      assert Primary(InitKey(i)) != k;
      assert CarAt(prev, InitKey(i)) == Some(Catalog[i]);
    }
  }

  /**
   * Seeds the catalog under "AVX 0 AA" .. "AVX 9 AA", every car owned by the
   * bank and not in finance. No index marker is written and nothing is
   * checked first, so existing values under those keys are overwritten.
   */
  function InitLedger(s: Store): (r: Store)
    ensures forall i :: 0 <= i < |Catalog| ==>
      var c := CarAt(r, InitKey(i)); c.Some? && c.value.owner == Bank && !c.value.inFinance
    ensures forall i :: 0 <= i < |Catalog| ==> CarAt(r, InitKey(i)) == Some(Catalog[i])
    ensures forall k :: k in r && k.Composite? ==> k in s && r[k] == s[k]
    ensures Frame(s, r, SeededKeys(|Catalog|))
    ensures r.Keys == s.Keys + SeededKeys(|Catalog|)
    ensures forall k :: k in SeededKeys(|Catalog|) ==> k in r && r[k].CarRec?
  {
    SeedCars(s, |Catalog|)
  }

  /** Reads the value under `carId`; a missing or empty value does not exist. */
  function QueryCar(s: Store, carId: string): (r: Result<Entry, Error>)
    ensures r.Ok? <==> GetState(s, Primary(carId)).Some?
    ensures r.Ok? ==> Primary(carId) in s && r.value == s[Primary(carId)]
    ensures r.Err? ==> r.error == NotFound(carId)
  {
    match GetState(s, Primary(carId))
    case None => Err(NotFound(carId))
    case Some(e) => Ok(e)
  }

  /** Reads the value under `financeId`, with the same rule as `QueryCar`. */
  function QueryCarFinance(s: Store, financeId: string): (r: Result<Entry, Error>)
    ensures r.Ok? <==> GetState(s, Primary(financeId)).Some?
    ensures r.Ok? ==> Primary(financeId) in s && r.value == s[Primary(financeId)]
    ensures r.Err? ==> r.error == NotFound(financeId)
  {
    QueryCar(s, financeId)
  }

  /** A value the contract may treat as a car: a car record or text JSON.parse rejects. */
  predicate CarOrOpaque(e: Entry) {
    e.CarRec? || !Parses(e)
  }

  predicate FinancingOrOpaque(e: Entry) {
    e.FinanceRec? || !Parses(e)
  }

  /**
   * The contract parses whatever it finds under a car id as a car without
   * looking at `docType`; this model covers the states where that value,
   * when present, is a car or does not parse at all.
   */
  predicate ReadsAsCar(s: Store, id: string) {
    Primary(id) in s ==> CarOrOpaque(s[Primary(id)])
  }

  /**
   * The value under `id`, when present, is not a JSON value outside the
   * contract's three record kinds. A financing or payment record read as a car
   * has no owner, which is what `CreateCarFinance` needs to reject it.
   */
  predicate NoForeignJson(s: Store, id: string) {
    Primary(id) in s ==> !s[Primary(id)].OtherJson?
  }

  predicate ReadsAsFinancing(s: Store, id: string) {
    Primary(id) in s ==> FinancingOrOpaque(s[Primary(id)])
  }

  /** What `PayCarFinance` reads must be a financing and the car it references. */
  predicate PayReady(s: Store, financeId: string) {
    && ReadsAsFinancing(s, financeId)
    && (FinancingAt(s, financeId).Some? ==> ReadsAsCar(s, FinancingAt(s, financeId).value.carId))
  }

  /** JSON.parse of a car value: fails on text that is not JSON. */
  function ParseCar(e: Entry, id: string): (r: Result<Car, Error>)
    requires CarOrOpaque(e)
    ensures r.Ok? <==> e.CarRec?
    ensures r.Ok? ==> CarRec(r.value) == e
    ensures r.Err? ==> r.error == Unparseable(id)
  {
    if e.CarRec? then Ok(e.car) else Err(Unparseable(id))
  }

  function ParseFinancing(e: Entry, id: string): (r: Result<Financing, Error>)
    requires FinancingOrOpaque(e)
    ensures r.Ok? <==> e.FinanceRec?
    ensures r.Ok? ==> FinanceRec(r.value) == e
    ensures r.Err? ==> r.error == Unparseable(id)
  {
    if e.FinanceRec? then Ok(e.financing) else Err(Unparseable(id))
  }

  /**
   * Creates a bank-owned car that is not in finance, plus its marker under
   * (carId, color, make, model); rejected if anything non-empty is stored under carId.
   */
  function CreateCar(s: Store, carId: string, make: string, model: string, color: string, price: int)
    : (r: Result<Store, Error>)
    ensures r.Err? <==> GetState(s, Primary(carId)).Some?
    ensures r.Err? ==> r.error == AlreadyExists(carId)
    ensures r.Ok? ==> CarAt(r.value, carId) == Some(Car(color, make, model, Bank, price, false))
    ensures r.Ok? ==>
      var k := CarIndexKey(carId, color, make, model); k in r.value && r.value[k] == Marker
    ensures r.Ok? ==> Frame(s, r.value, {Primary(carId), CarIndexKey(carId, color, make, model)})
  {
    if GetState(s, Primary(carId)).Some? then
      Err(AlreadyExists(carId))
    else
      var car := Car(color, make, model, Bank, price, false);
      Ok(s[Primary(carId) := CarRec(car)][CarIndexKey(carId, color, make, model) := Marker])
  }

  /** Replaces the owner of the car under carId and nothing else. */
  function ChangeCarOwner(s: Store, carId: string, newOwner: string): (r: Result<Store, Error>)
    requires ReadsAsCar(s, carId)
    ensures r.Ok? <==> CarAt(s, carId).Some?
    ensures GetState(s, Primary(carId)).None? ==> r == Err(NotFound(carId))
    ensures GetState(s, Primary(carId)).Some? && CarAt(s, carId).None? ==> r == Err(Unparseable(carId))
    ensures r.Ok? ==>
      var before, after := CarAt(s, carId).value, CarAt(r.value, carId);
      && after.Some?
      && after.value.owner == newOwner
      && after.value.inFinance == before.inFinance
      && SameVehicle(before, after.value)
    ensures r.Ok? ==> Frame(s, r.value, {Primary(carId)})
  {
    var e :- QueryCar(s, carId);
    var car :- ParseCar(e, carId);
    Ok(s[Primary(carId) := CarRec(car.(owner := newOwner))])
  }

  /**
   * Finances a bank-owned car: stores the agreement with nothing paid yet,
   * its marker, and the car flagged as in finance. Whether the car already
   * is in finance is not consulted, and nothing is checked under financeId.
   * A financing or payment record under carId parses to an object without an
   * owner, so it is rejected as not owned by the bank.
   */
  function CreateCarFinance(
    s: Store, financeId: string, carId: string, price: int, payPerMonth: int,
    debtor: string, creditor: string, timestamp: Date): (r: Result<Store, Error>)
    requires NoForeignJson(s, carId)
    ensures r.Ok? <==> CarAt(s, carId).Some? && CarAt(s, carId).value.owner == Bank
    ensures GetState(s, Primary(carId)).None? ==> r == Err(NotFound(carId))
    ensures GetState(s, Primary(carId)).Some? && !Parses(s[Primary(carId)]) ==> r == Err(Unparseable(carId))
    ensures Primary(carId) in s && (s[Primary(carId)].FinanceRec? || s[Primary(carId)].PaymentRec?) ==>
      r == Err(NotOwnedByBank(carId))
    ensures CarAt(s, carId).Some? && CarAt(s, carId).value.owner != Bank ==> r == Err(NotOwnedByBank(carId))
    ensures r.Ok? ==>
      var before, after := CarAt(s, carId).value, CarAt(r.value, carId);
      && after.Some?
      && after.value.inFinance
      && after.value.owner == before.owner
      && SameVehicle(before, after.value)
    ensures r.Ok? && financeId != carId ==>
      FinancingAt(r.value, financeId) == Some(Financing(carId, price, 0, payPerMonth, debtor, creditor, timestamp))
    ensures r.Ok? ==>
      var k := BuyCarIndexKey(financeId, carId, debtor, creditor, timestamp); k in r.value && r.value[k] == Marker
    ensures r.Ok? ==>
      Frame(s, r.value, {Primary(financeId), BuyCarIndexKey(financeId, carId, debtor, creditor, timestamp), Primary(carId)})
  {
    var e :- QueryCar(s, carId);
    if e.FinanceRec? || e.PaymentRec? then
      Err(NotOwnedByBank(carId))
    else
    var car :- ParseCar(e, carId);
    if car.owner != Bank then
      Err(NotOwnedByBank(carId))
    else
      var financing := Financing(carId, price, 0, payPerMonth, debtor, creditor, timestamp);
      var s1 := s[Primary(financeId) := FinanceRec(financing)];
      var s2 := s1[BuyCarIndexKey(financeId, carId, debtor, creditor, timestamp) := Marker];
      Ok(s2[Primary(carId) := CarRec(car.(inFinance := true))])
  }

  /** The agreement is paid off once the accumulated payment reaches the price. */
  predicate PaidOff(f: Financing) {
    f.payment >= f.price
  }

  /**
   * Records a payment and its marker, adds the amount to the agreement, and
   * once the agreement is paid off hands the car to the agreement's debtor
   * and clears its finance flag. Nothing is checked under paymentId, and
   * amounts are neither bounded nor compared with what is still owed.
   */
  function PayCarFinance(
    s: Store, financeId: string, paymentId: string, amount: int,
    debtor: string, creditor: string, timestamp: Date): (r: Result<Store, Error>)
    requires PayReady(s, financeId)
    ensures r.Ok? <==>
      FinancingAt(s, financeId).Some? && CarAt(s, FinancingAt(s, financeId).value.carId).Some?
    ensures GetState(s, Primary(financeId)).None? ==> r == Err(NotFound(financeId))
    ensures GetState(s, Primary(financeId)).Some? && FinancingAt(s, financeId).None? ==>
      r == Err(Unparseable(financeId))
    ensures FinancingAt(s, financeId).Some? ==>
      var carId := FinancingAt(s, financeId).value.carId;
      && (GetState(s, Primary(carId)).None? ==> r == Err(NotFound(carId)))
      && (GetState(s, Primary(carId)).Some? && CarAt(s, carId).None? ==> r == Err(Unparseable(carId)))
    ensures r.Ok? ==>
      var f, g := FinancingAt(s, financeId).value, FinancingAt(r.value, financeId);
      && g.Some?
      && g.value.payment == f.payment + amount
      && SameTerms(f, g.value)
    ensures r.Ok? ==>
      var f := FinancingAt(s, financeId).value;
      var before, after := CarAt(s, f.carId).value, CarAt(r.value, f.carId);
      PaidOff(f.(payment := f.payment + amount)) ==>
        && after.Some?
        && after.value.owner == f.debtor
        && !after.value.inFinance
        && SameVehicle(before, after.value)
    ensures r.Ok? ==>
      var f := FinancingAt(s, financeId).value;
      !PaidOff(f.(payment := f.payment + amount)) && paymentId != f.carId ==>
        Primary(f.carId) in r.value && r.value[Primary(f.carId)] == s[Primary(f.carId)]
    ensures r.Ok? ==>
      var f := FinancingAt(s, financeId).value;
      paymentId != financeId && !(paymentId == f.carId && PaidOff(f.(payment := f.payment + amount))) ==>
        && Primary(paymentId) in r.value
        && r.value[Primary(paymentId)] == PaymentRec(Payment(financeId, amount, debtor, creditor, timestamp))
    ensures r.Ok? ==>
      var k := PayCarIndexKey(paymentId, financeId, debtor, creditor, timestamp); k in r.value && r.value[k] == Marker
    ensures r.Ok? ==>
      Frame(s, r.value, {
        Primary(paymentId),
        PayCarIndexKey(paymentId, financeId, debtor, creditor, timestamp),
        Primary(financeId),
        Primary(FinancingAt(s, financeId).value.carId)})
  {
    var fe :- QueryCarFinance(s, financeId);
    var finance :- ParseFinancing(fe, financeId);
    var ce :- QueryCar(s, finance.carId);
    var car :- ParseCar(ce, finance.carId);
    var s1 := s[Primary(paymentId) := PaymentRec(Payment(financeId, amount, debtor, creditor, timestamp))];
    var s2 := s1[PayCarIndexKey(paymentId, financeId, debtor, creditor, timestamp) := Marker];
    var finance' := finance.(payment := finance.payment + amount);
    var s3 := s2[Primary(financeId) := FinanceRec(finance')];
    if PaidOff(finance') then
      Ok(s3[Primary(finance.carId) := CarRec(car.(owner := finance.debtor, inFinance := false))])
    else
      Ok(s3)
  }
}

=== FILE: index.dfy ===
/**
 * The composite-key indexes written beside each new record. Each marker key
 * is an index name plus an ordered attribute list; dates are rendered as
 * unpadded decimal year, month and day.
 */
module Index {
  import opened Wrappers
  import opened Records
  import opened WorldState
  import Decimal

  const CarIndex: string := "carId~color~make~model"
  const BuyCarIndex: string := "financeId~carId~debtor~creditor~year~month-day"
  const PayCarIndex: string := "paymentId~financeId~debtor~creditor~year~month-day"

  function DateAttrs(d: Date): seq<string> {
    [Decimal.IntToString(d.year), Decimal.IntToString(d.month), Decimal.IntToString(d.day)]
  }

  function CarIndexKey(carId: string, color: string, make: string, model: string): Key {
    Composite(CarIndex, [carId, color, make, model])
  }

  function BuyCarIndexKey(financeId: string, carId: string, debtor: string, creditor: string, d: Date): Key {
    Composite(BuyCarIndex, [financeId, carId, debtor, creditor] + DateAttrs(d))
  }

  function PayCarIndexKey(paymentId: string, financeId: string, debtor: string, creditor: string, d: Date): Key {
    Composite(PayCarIndex, [paymentId, financeId, debtor, creditor] + DateAttrs(d))
  }

  /** The three date attributes read back as the year, month and day they render. */
  lemma DateAttrsRecoverDate(d: Date)
    ensures |DateAttrs(d)| == 3
    ensures Decimal.ParseInt(DateAttrs(d)[0]) == Some(d.year)
    ensures Decimal.ParseInt(DateAttrs(d)[1]) == Some(d.month)
    ensures Decimal.ParseInt(DateAttrs(d)[2]) == Some(d.day)
  {
    Decimal.IntRoundTrip(d.year);
    Decimal.IntRoundTrip(d.month);
    Decimal.IntRoundTrip(d.day);
  }

  lemma DateAttrsInjective(d: Date, e: Date)
    ensures DateAttrs(d) == DateAttrs(e) ==> d == e
  {
    if DateAttrs(d) == DateAttrs(e) {
      DateAttrsRecoverDate(d);
      DateAttrsRecoverDate(e);
    }
  }

  /**
   * A financing marker key determines every attribute it was built from,
   * so two financing events with different data never share a marker.
   */
  lemma BuyCarIndexKeyInjective(
    financeId: string, carId: string, debtor: string, creditor: string, d: Date,
    financeId': string, carId': string, debtor': string, creditor': string, d': Date)
    requires BuyCarIndexKey(financeId, carId, debtor, creditor, d) == BuyCarIndexKey(financeId', carId', debtor', creditor', d')
    ensures financeId == financeId' && carId == carId' && debtor == debtor' && creditor == creditor' && d == d'
  {
    var a := BuyCarIndexKey(financeId, carId, debtor, creditor, d).attrs;
    assert a[4..] == DateAttrs(d) == DateAttrs(d');
    DateAttrsInjective(d, d');
  }

  /** The same for payment marker keys. */
  lemma PayCarIndexKeyInjective(
    paymentId: string, financeId: string, debtor: string, creditor: string, d: Date,
    paymentId': string, financeId': string, debtor': string, creditor': string, d': Date)
    requires PayCarIndexKey(paymentId, financeId, debtor, creditor, d) == PayCarIndexKey(paymentId', financeId', debtor', creditor', d')
    ensures paymentId == paymentId' && financeId == financeId' && debtor == debtor' && creditor == creditor' && d == d'
  {
    var a := PayCarIndexKey(paymentId, financeId, debtor, creditor, d).attrs;
    assert a[4..] == DateAttrs(d) == DateAttrs(d');
    DateAttrsInjective(d, d');
  }
}

=== FILE: properties.dfy ===
/**
 * Properties that relate several transactions: reading back what was
 * written, rejecting duplicates, undoing an owner change, financing a car
 * twice, accumulating payments and the payoff transfer.
 */
module Properties {
  import opened Wrappers
  import opened Records
  import opened WorldState
  import opened FabCar

  /** A car read back right after its creation is the bank-owned car just written. */
  lemma CreateCarThenQueryCar(s: Store, carId: string, make: string, model: string, color: string, price: int)
    requires CreateCar(s, carId, make, model, color, price).Ok?
    ensures QueryCar(CreateCar(s, carId, make, model, color, price).value, carId)
      == Ok(CarRec(Car(color, make, model, Bank, price, false)))
  {
  }

  /** Creating the same car id again is rejected, whatever the other arguments. */
  lemma CreateCarTwiceRejected(
    s: Store, carId: string, make: string, model: string, color: string, price: int,
    make': string, model': string, color': string, price': int)
    requires CreateCar(s, carId, make, model, color, price).Ok?
    ensures CreateCar(CreateCar(s, carId, make, model, color, price).value, carId, make', model', color', price')
      == Err(AlreadyExists(carId))
  {
  }

  /** Giving the car back to its previous owner restores the whole state. */
  lemma ChangeCarOwnerUndo(s: Store, carId: string, newOwner: string)
    requires ReadsAsCar(s, carId) && CarAt(s, carId).Some?
    ensures ReadsAsCar(ChangeCarOwner(s, carId, newOwner).value, carId)
    ensures ChangeCarOwner(ChangeCarOwner(s, carId, newOwner).value, carId, CarAt(s, carId).value.owner) == Ok(s)
  {
    var s1 := ChangeCarOwner(s, carId, newOwner).value;
    var s2 := ChangeCarOwner(s1, carId, CarAt(s, carId).value.owner).value;
    assert s2[Primary(carId)] == s[Primary(carId)];
    assert s2 == s;
  }

  /** Changing to the same owner twice is the same as changing once. */
  lemma ChangeCarOwnerIdempotent(s: Store, carId: string, newOwner: string)
    requires ReadsAsCar(s, carId) && CarAt(s, carId).Some?
    ensures ReadsAsCar(ChangeCarOwner(s, carId, newOwner).value, carId)
    ensures ChangeCarOwner(ChangeCarOwner(s, carId, newOwner).value, carId, newOwner) == ChangeCarOwner(s, carId, newOwner)
  {
    var s1 := ChangeCarOwner(s, carId, newOwner).value;
    var s2 := ChangeCarOwner(s1, carId, newOwner).value;
    assert s2 == s1;
  }

  /**
   * Financing does not look at the finance flag: right after one financing,
   * the same car can be financed again under another agreement.
   */
  lemma FinancedCarCanBeFinancedAgain(
    s: Store, financeId: string, carId: string, price: int, payPerMonth: int,
    debtor: string, creditor: string, timestamp: Date,
    financeId': string, price': int, payPerMonth': int, debtor': string, creditor': string, timestamp': Date)
    requires NoForeignJson(s, carId)
    requires CreateCarFinance(s, financeId, carId, price, payPerMonth, debtor, creditor, timestamp).Ok?
    ensures var s1 := CreateCarFinance(s, financeId, carId, price, payPerMonth, debtor, creditor, timestamp).value;
      && CarAt(s1, carId).value.inFinance
      && ReadsAsCar(s1, carId)
      && CreateCarFinance(s1, financeId', carId, price', payPerMonth', debtor', creditor', timestamp').Ok?
  {
  }

  /** An agreement read back right after its creation is the one just written, with nothing paid. */
  lemma CreateCarFinanceThenQueryCarFinance(
    s: Store, financeId: string, carId: string, price: int, payPerMonth: int,
    debtor: string, creditor: string, timestamp: Date)
    requires NoForeignJson(s, carId) && financeId != carId
    requires CreateCarFinance(s, financeId, carId, price, payPerMonth, debtor, creditor, timestamp).Ok?
    ensures QueryCarFinance(CreateCarFinance(s, financeId, carId, price, payPerMonth, debtor, creditor, timestamp).value, financeId)
      == Ok(FinanceRec(Financing(carId, price, 0, payPerMonth, debtor, creditor, timestamp)))
  {
  }

  /** Once the car has left the bank, financing it is rejected. */
  lemma FinancingNeedsBankOwner(
    s: Store, carId: string, newOwner: string,
    financeId: string, price: int, payPerMonth: int, debtor: string, creditor: string, timestamp: Date)
    requires ReadsAsCar(s, carId) && CarAt(s, carId).Some? && newOwner != Bank
    ensures var s1 := ChangeCarOwner(s, carId, newOwner).value;
      && ReadsAsCar(s1, carId)
      && CreateCarFinance(s1, financeId, carId, price, payPerMonth, debtor, creditor, timestamp)
        == Err(NotOwnedByBank(carId))
  {
  }

  /** The arguments of one payment call against a fixed agreement. */
  datatype PaymentCall = PaymentCall(paymentId: string, amount: int, debtor: string, creditor: string, timestamp: Date)

  function Total(calls: seq<PaymentCall>): int {
    if calls == [] then 0 else calls[0].amount + Total(calls[1..])
  }

  /** Applies the payments in order; `None` when one is rejected or falls outside the model. */
  function PayAll(s: Store, financeId: string, calls: seq<PaymentCall>): Option<Store>
    decreases |calls|
  {
    if calls == [] then Some(s)
    else if !PayReady(s, financeId) then None
    else
      var c := calls[0];
      match PayCarFinance(s, financeId, c.paymentId, c.amount, c.debtor, c.creditor, c.timestamp)
      case Err(_) => None
      case Ok(s1) => PayAll(s1, financeId, calls[1..])
  }

  /**
   * After a run of accepted payments the agreement holds exactly the old
   * accumulated payment plus the sum of the amounts, and its terms are unchanged.
   */
  lemma {:induction false} PaymentsAccumulate(s: Store, financeId: string, calls: seq<PaymentCall>)
    requires FinancingAt(s, financeId).Some?
    ensures PayAll(s, financeId, calls).Some? ==>
      var f, g := FinancingAt(s, financeId).value, FinancingAt(PayAll(s, financeId, calls).value, financeId);
      && g.Some?
      && g.value.payment == f.payment + Total(calls)
      && SameTerms(f, g.value)
    decreases |calls|
  {
    if calls != [] && PayReady(s, financeId) {
      var c := calls[0];
      var r := PayCarFinance(s, financeId, c.paymentId, c.amount, c.debtor, c.creditor, c.timestamp);
      if r.Ok? {
        PaymentsAccumulate(r.value, financeId, calls[1..]);
      }
    }
  }

  /**
   * A payment against a paid-off agreement hands the car back to the
   * agreement's debtor, even after the owner was changed in between.
   */
  lemma PaidOffPaymentReassertsOwner(
    s: Store, financeId: string, interloper: string,
    paymentId: string, amount: int, debtor: string, creditor: string, timestamp: Date)
    requires PayReady(s, financeId)
    requires FinancingAt(s, financeId).Some? && PaidOff(FinancingAt(s, financeId).value)
    requires CarAt(s, FinancingAt(s, financeId).value.carId).Some?
    requires amount >= 0
    ensures var f := FinancingAt(s, financeId).value;
      var s1 := ChangeCarOwner(s, f.carId, interloper).value;
      && PayReady(s1, financeId)
      && PayCarFinance(s1, financeId, paymentId, amount, debtor, creditor, timestamp).Ok?
      && var s2 := PayCarFinance(s1, financeId, paymentId, amount, debtor, creditor, timestamp).value;
         CarAt(s2, f.carId).Some? && CarAt(s2, f.carId).value.owner == f.debtor && !CarAt(s2, f.carId).value.inFinance
  {
    var f := FinancingAt(s, financeId).value;
    var s1 := ChangeCarOwner(s, f.carId, interloper).value;
    assert FinancingAt(s1, financeId) == Some(f);
  }

  /**
   * The full life of a car: created, financed by the bank, paid in one go;
   * the debtor then owns it and it is no longer in finance.
   */
  lemma CreateFinancePayOff(
    s: Store, carId: string, make: string, model: string, color: string, carPrice: int,
    financeId: string, price: int, payPerMonth: int, debtor: string, creditor: string, t0: Date,
    paymentId: string, amount: int, t1: Date)
    requires GetState(s, Primary(carId)).None?
    requires financeId != carId
    requires amount >= price
    ensures CreateCar(s, carId, make, model, color, carPrice).Ok?
    ensures var s1 := CreateCar(s, carId, make, model, color, carPrice).value;
      && ReadsAsCar(s1, carId)
      && CreateCarFinance(s1, financeId, carId, price, payPerMonth, debtor, creditor, t0).Ok?
      && var s2 := CreateCarFinance(s1, financeId, carId, price, payPerMonth, debtor, creditor, t0).value;
         && PayReady(s2, financeId)
         && PayCarFinance(s2, financeId, paymentId, amount, debtor, creditor, t1).Ok?
         && var s3 := PayCarFinance(s2, financeId, paymentId, amount, debtor, creditor, t1).value;
            CarAt(s3, carId) == Some(Car(color, make, model, debtor, carPrice, false))
  {
    var s1 := CreateCar(s, carId, make, model, color, carPrice).value;
    var s2 := CreateCarFinance(s1, financeId, carId, price, payPerMonth, debtor, creditor, t0).value;
    assert FinancingAt(s2, financeId) == Some(Financing(carId, price, 0, payPerMonth, debtor, creditor, t0));
  }

  /** Seeding a state that already holds the first n catalog cars changes nothing. */
  lemma {:induction false} ReseedingIsNoOp(t: Store, n: nat)
    requires n <= |Catalog|
    requires forall i :: 0 <= i < n ==> CarAt(t, InitKey(i)) == Some(Catalog[i])
    ensures SeedCars(t, n) == t
  {
    if n > 0 {
      ReseedingIsNoOp(t, n - 1);
      var k := Primary(InitKey(n - 1));
      assert CarAt(t, InitKey(n - 1)) == Some(Catalog[n - 1]);
      assert t[k := CarRec(Catalog[n - 1])] == t;
    }
  }

  /** Seeding twice leaves the same state as seeding once. */
  lemma InitLedgerIdempotent(s: Store)
    ensures InitLedger(InitLedger(s)) == InitLedger(s)
  {
    ReseedingIsNoOp(InitLedger(s), |Catalog|);
  }

  /** Every car the ledger is seeded with can be financed straight away. */
  lemma CatalogCarsCanBeFinanced(
    s: Store, i: nat, financeId: string, price: int, payPerMonth: int,
    debtor: string, creditor: string, timestamp: Date)
    requires i < |Catalog|
    ensures ReadsAsCar(InitLedger(s), InitKey(i))
    ensures CreateCarFinance(InitLedger(s), financeId, InitKey(i), price, payPerMonth, debtor, creditor, timestamp).Ok?
  {
  }
}

=== FILE: queries.dfy ===
/**
 * The three "query all" transactions. Each walks the host's range scan in
 * order, tries JSON.parse on every value, keeps a parsed value only when its
 * `docType` is the requested tag, and keeps every value JSON.parse rejects as
 * its raw text. Which keys the host's scan returns is an input here.
 */
module Queries {
  import opened Wrappers
  import opened Records
  import opened WorldState

  /** One (key, value) pair produced by the host's range scan. */
  datatype Scanned = Scanned(key: Key, value: Entry)

  /** A result record: the parsed value, or the stored text when parsing failed. */
  datatype Shown = Record(entry: Entry) | Text(text: string)

  datatype Row = Row(key: Key, record: Shown)

  /** Whether the filter lets a scanned value through for `tag`. */
  predicate Keep(tag: string, e: Entry) {
    !Parses(e) || DocType(e) == Some(tag)
  }

  function ShowRow(x: Scanned): Row {
    Row(x.key, if Parses(x.value) then Record(x.value) else Text(TextOf(x.value)))
  }

  /** A result row is a parsed value tagged `tag`, or text. */
  predicate Fits(tag: string, row: Row) {
    row.record.Record? ==> Parses(row.record.entry) && DocType(row.record.entry) == Some(tag)
  }

  function QueryAll(tag: string, scan: seq<Scanned>): (rows: seq<Row>)
    ensures |rows| <= |scan|
    ensures forall i :: 0 <= i < |rows| ==> Fits(tag, rows[i])
  {
    if scan == [] then []
    else
      var rest := QueryAll(tag, scan[1..]);
      if Keep(tag, scan[0].value) then [ShowRow(scan[0])] + rest else rest
  }

  function QueryAllCars(scan: seq<Scanned>): (rows: seq<Row>)
    ensures |rows| <= |scan|
    ensures forall i :: 0 <= i < |rows| ==> Fits(CarTag, rows[i])
  {
    QueryAll(CarTag, scan)
  }

  function QueryAllCarFinances(scan: seq<Scanned>): (rows: seq<Row>)
    ensures |rows| <= |scan|
    ensures forall i :: 0 <= i < |rows| ==> Fits(FinancingTag, rows[i])
  {
    QueryAll(FinancingTag, scan)
  }

  function QueryAllCarFinancePayment(scan: seq<Scanned>): (rows: seq<Row>)
    ensures |rows| <= |scan|
    ensures forall i :: 0 <= i < |rows| ==> Fits(PaymentTag, rows[i])
  {
    QueryAll(PaymentTag, scan)
  }

  /** Position j of the scan holds a value the filter keeps. */
  predicate Kept(tag: string, scan: seq<Scanned>, j: int) {
    0 <= j < |scan| && Keep(tag, scan[j].value)
  }

  /**
   * `idx` picks, in increasing order, exactly the scanned positions the
   * filter keeps, and `rows` shows those positions one for one.
   */
  ghost predicate OrderedFilter(rows: seq<Row>, tag: string, scan: seq<Scanned>, idx: seq<nat>) {
    && |idx| == |rows|
    && (forall i :: 0 <= i < |idx| ==>
          idx[i] < |scan| && Keep(tag, scan[idx[i]].value) && rows[i] == ShowRow(scan[idx[i]]))
    && (forall i, j :: 0 <= i < j < |idx| ==> idx[i] < idx[j])
    && (forall j {:trigger Kept(tag, scan, j)} :: Kept(tag, scan, j) ==> j in idx)
  }

  /** Positions of a filter over `scan[1..]`, moved to positions over `scan`. */
  lemma ShiftFilter(rest: seq<Row>, tag: string, scan: seq<Scanned>, tail: seq<nat>) returns (shifted: seq<nat>)
    requires |scan| > 0
    requires OrderedFilter(rest, tag, scan[1..], tail)
    ensures |shifted| == |rest|
    ensures forall i :: 0 <= i < |shifted| ==>
      1 <= shifted[i] < |scan| && Keep(tag, scan[shifted[i]].value) && rest[i] == ShowRow(scan[shifted[i]])
    ensures forall i, j :: 0 <= i < j < |shifted| ==> shifted[i] < shifted[j]
    ensures forall j {:trigger Kept(tag, scan, j)} :: Kept(tag, scan, j) && j != 0 ==> j in shifted
  {
    shifted := seq(|tail|, i requires 0 <= i < |tail| => tail[i] + 1);
    forall i | 0 <= i < |shifted|
      ensures 1 <= shifted[i] < |scan| && Keep(tag, scan[shifted[i]].value) && rest[i] == ShowRow(scan[shifted[i]])
    {
      assert scan[1..][tail[i]] == scan[shifted[i]];
    }
    forall j | Kept(tag, scan, j) && j != 0
      ensures j in shifted
    {
      assert scan[1..][j - 1] == scan[j];
      assert Kept(tag, scan[1..], j - 1);
      assert j - 1 in tail;
      var i :| 0 <= i < |tail| && tail[i] == j - 1;
      assert shifted[i] == j;
    }
  }

  /** The result is the scan, in scan order, restricted to the kept values. */
  lemma {:induction false} QueryAllIsOrderedFilter(tag: string, scan: seq<Scanned>) returns (idx: seq<nat>)
    ensures OrderedFilter(QueryAll(tag, scan), tag, scan, idx)
    decreases |scan|
  {
    if scan == [] {
      idx := [];
    } else {
      var rows, rest := QueryAll(tag, scan), QueryAll(tag, scan[1..]);
      var tail := QueryAllIsOrderedFilter(tag, scan[1..]);
      var shifted := ShiftFilter(rest, tag, scan, tail);
      if Keep(tag, scan[0].value) {
        idx := [0] + shifted;
        assert rows == [ShowRow(scan[0])] + rest;
        assert forall i :: 1 <= i < |idx| ==> idx[i] == shifted[i - 1] && rows[i] == rest[i - 1];
      } else {
        idx := shifted;
        assert rows == rest;
        assert !Kept(tag, scan, 0);
      }
    }
  }

  /**
   * Index markers are not filtered out: whenever the scan returns one, every
   * query reports it as the text of the byte 0x00.
   */
  lemma MarkersSurface(tag: string, scan: seq<Scanned>, k: Key)
    requires Scanned(k, Marker) in scan
    ensures Row(k, Text(MarkerText)) in QueryAll(tag, scan)
  {
    var idx := QueryAllIsOrderedFilter(tag, scan);
    var rows := QueryAll(tag, scan);
    var j :| 0 <= j < |scan| && scan[j] == Scanned(k, Marker);
    assert Kept(tag, scan, j);
    assert j in idx;
    var i :| 0 <= i < |idx| && idx[i] == j;
    assert rows[i] == Row(k, Text(MarkerText));
  }
}

=== FILE: records.dfy ===
/**
 * The record kinds the contract keeps in the world state, and what the JSON
 * codec makes of a stored value. Serialisation itself is abstracted away:
 * an `Entry` is the decoded view of one stored byte string.
 */
module Records {
  import opened Wrappers

  /** A timestamp as (full year, month 1..12, day of month). */
  datatype Date = Date(year: int, month: int, day: int)

  /** A car record; its discriminator is `CarTag`. */
  datatype Car = Car(
    color: string,
    make: string,
    model: string,
    owner: string,
    price: int,
    inFinance: bool)

  /** A financing agreement; its discriminator is `FinancingTag`. */
  datatype Financing = Financing(
    carId: string,
    price: int,
    payment: int,
    payPerMonth: int,
    debtor: string,
    creditor: string,
    timestamp: Date)

  /** One payment towards a financing; its discriminator is `PaymentTag`. */
  datatype Payment = Payment(
    financeId: string,
    payment: int,
    debtor: string,
    creditor: string,
    timestamp: Date)

  /**
   * A stored value.
   * - `Marker` is the one-byte value 0x00 kept under composite keys;
   * - `Raw` is any other text that JSON.parse rejects (including the empty value);
   * - `OtherJson` is any JSON value that is none of the three records,
   *   with the string `docType` field it carries, if any.
   */
  datatype Entry =
    | CarRec(car: Car)
    | FinanceRec(financing: Financing)
    | PaymentRec(pay: Payment)
    | Marker
    | Raw(text: string)
    | OtherJson(docType: Option<string>)

  const CarTag: string := "car"
  const FinancingTag: string := "carFinancing"
  const PaymentTag: string := "carFinancingPayment"

  /** The text of the marker byte 0x00 decoded as UTF-8. */
  const MarkerText: string := [0 as char]

  /** The zero-length value, which the contract treats as "does not exist". */
  predicate IsEmptyValue(e: Entry) {
    e == Raw("")
  }

  /** Whether JSON.parse accepts the stored text. */
  predicate Parses(e: Entry) {
    !e.Marker? && !e.Raw?
  }

  /** The `docType` field of a parsed value (absent when it has none). */
  function DocType(e: Entry): Option<string>
    requires Parses(e)
  {
    match e
    case CarRec(_) => Some(CarTag)
    case FinanceRec(_) => Some(FinancingTag)
    case PaymentRec(_) => Some(PaymentTag)
    case OtherJson(tag) => tag
  }

  /** The stored text of a value JSON.parse rejects. */
  function TextOf(e: Entry): string
    requires !Parses(e)
  {
    if e.Marker? then MarkerText else e.text
  }

  /** The two cars agree on everything but owner and finance flag. */
  predicate SameVehicle(c: Car, d: Car) {
    c.color == d.color && c.make == d.make && c.model == d.model && c.price == d.price
  }

  /** The two financings agree on everything but the accumulated payment. */
  predicate SameTerms(f: Financing, g: Financing) {
    && f.carId == g.carId
    && f.price == g.price
    && f.payPerMonth == g.payPerMonth
    && f.debtor == g.debtor
    && f.creditor == g.creditor
    && f.timestamp == g.timestamp
  }
}

=== FILE: transactions.dfy ===
/**
 * The contract as a state machine over ledger histories: every transaction
 * either commits all of its writes or, when rejected, none. Two invariants
 * hold along every history: records and markers never share a kind of key,
 * and the index is append-only.
 */
module Transactions {
  import opened Wrappers
  import opened Records
  import opened WorldState
  import opened FabCar

  datatype Tx =
    | InitLedgerTx
    | CreateCarTx(carId: string, make: string, model: string, color: string, price: int)
    | ChangeCarOwnerTx(carId: string, newOwner: string)
    | CreateCarFinanceTx(
        financeId: string, carId: string, price: int, payPerMonth: int,
        debtor: string, creditor: string, timestamp: Date)
    | PayCarFinanceTx(
        financeId: string, paymentId: string, amount: int,
        debtor: string, creditor: string, timestamp: Date)

  /** The transaction reads only values of the kind it expects. */
  predicate Ready(s: Store, tx: Tx) {
    match tx
    case ChangeCarOwnerTx(carId, _) => ReadsAsCar(s, carId)
    case CreateCarFinanceTx(_, carId, _, _, _, _, _) => NoForeignJson(s, carId)
    case PayCarFinanceTx(financeId, _, _, _, _, _) => PayReady(s, financeId)
    case _ => true
  }

  function Apply(s: Store, tx: Tx): Result<Store, Error>
    requires Ready(s, tx)
  {
    match tx
    case InitLedgerTx => Ok(InitLedger(s))
    case CreateCarTx(carId, make, model, color, price) => CreateCar(s, carId, make, model, color, price)
    case ChangeCarOwnerTx(carId, newOwner) => ChangeCarOwner(s, carId, newOwner)
    case CreateCarFinanceTx(financeId, carId, price, payPerMonth, debtor, creditor, timestamp) =>
      CreateCarFinance(s, financeId, carId, price, payPerMonth, debtor, creditor, timestamp)
    case PayCarFinanceTx(financeId, paymentId, amount, debtor, creditor, timestamp) =>
      PayCarFinance(s, financeId, paymentId, amount, debtor, creditor, timestamp)
  }

  /** The state after the transaction: its writes if accepted, unchanged if rejected. */
  function Commit(s: Store, tx: Tx): Store
    requires Ready(s, tx)
  {
    match Apply(s, tx)
    case Ok(s') => s'
    case Err(_) => s
  }

  /** Commits a history in order; `None` once a transaction falls outside the model. */
  function Run(s: Store, txs: seq<Tx>): Option<Store>
    decreases |txs|
  {
    if txs == [] then Some(s)
    else if !Ready(s, txs[0]) then None
    else Run(Commit(s, txs[0]), txs[1..])
  }

  /**
   * Markers under composite keys are never removed, and whatever appears or
   * changes under a composite key is a marker.
   */
  ghost predicate IndexGrows(s: Store, s': Store) {
    && (forall k :: k in s && k.Composite? && s[k].Marker? ==> k in s' && s'[k].Marker?)
    && (forall k :: k in s' && k.Composite? && !(k in s && s'[k] == s[k]) ==> s'[k].Marker?)
  }

  lemma IndexGrowsTransitive(s: Store, s': Store, s'': Store)
    requires IndexGrows(s, s') && IndexGrows(s', s'')
    ensures IndexGrows(s, s'')
  {
  }

  /** One transaction keeps both invariants. */
  lemma ApplyKeepsInvariants(s: Store, tx: Tx)
    requires Ready(s, tx)
    ensures Apply(s, tx).Ok? ==> IndexGrows(s, Apply(s, tx).value)
    ensures Segregated(s) && Apply(s, tx).Ok? ==> Segregated(Apply(s, tx).value)
  {
  }

  /** Along any history, segregation is kept and the index only grows. */
  lemma {:induction false} RunKeepsInvariants(s: Store, txs: seq<Tx>)
    ensures Run(s, txs).Some? ==> IndexGrows(s, Run(s, txs).value)
    ensures Segregated(s) && Run(s, txs).Some? ==> Segregated(Run(s, txs).value)
    decreases |txs|
  {
    if txs != [] && Ready(s, txs[0]) {
      var s1 := Commit(s, txs[0]);
      ApplyKeepsInvariants(s, txs[0]);
      RunKeepsInvariants(s1, txs[1..]);
      if Run(s, txs).Some? {
        IndexGrowsTransitive(s, s1, Run(s, txs).value);
      }
    }
  }
}

=== FILE: world_state.dfy ===
/**
 * The key-value world state the contract reads and writes. Composite keys
 * are kept as (index name, attribute list) pairs, distinct from every
 * primary id by construction. The contract itself never checks that an id it
 * is given differs from a composite key's encoding; this model assumes it does.
 */
module WorldState {
  import opened Wrappers
  import opened Records

  datatype Key = Primary(id: string) | Composite(index: string, attrs: seq<string>)

  type Store = map<Key, Entry>

  /** A read as the contract performs it: a missing key and an empty value both read as nothing. */
  function GetState(s: Store, k: Key): (r: Option<Entry>)
    ensures r.Some? <==> k in s && !IsEmptyValue(s[k])
    ensures r.Some? ==> r.value == s[k]
  {
    if k in s && !IsEmptyValue(s[k]) then Some(s[k]) else None
  }

  /** The car stored under primary key `id`, if that key holds one. */
  function CarAt(s: Store, id: string): Option<Car> {
    if Primary(id) in s && s[Primary(id)].CarRec? then Some(s[Primary(id)].car) else None
  }

  /** The financing stored under primary key `id`, if that key holds one. */
  function FinancingAt(s: Store, id: string): Option<Financing> {
    if Primary(id) in s && s[Primary(id)].FinanceRec? then Some(s[Primary(id)].financing) else None
  }

  /** Every key outside `changed` is present in both stores or in neither, with the same value. */
  ghost predicate Frame(s: Store, s': Store, changed: set<Key>) {
    && s'.Keys - changed == s.Keys - changed
    && forall k :: k in s && k !in changed ==> k in s' && s'[k] == s[k]
  }

  /**
   * The kind discipline the contract's writes follow: markers and nothing
   * else under composite keys, and no marker under a primary key.
   */
  ghost predicate Segregated(s: Store) {
    forall k :: k in s ==> (k.Composite? <==> s[k].Marker?)
  }
}

=== FILE: wrappers.dfy ===
/** Failure-compatible result and option types shared by the model. */
module Wrappers {

  datatype Option<+T> = None | Some(value: T)

  /** Either a value or an error; usable with `:-`. */
  datatype Result<+T, +E> = Ok(value: T) | Err(error: E) {

    predicate IsFailure() {
      Err?
    }

    function PropagateFailure<U>(): Result<U, E>
      requires Err?
    {
      Err(error)
    }

    function Extract(): T
      requires Ok?
    {
      value
    }
  }
}
